=== FILE: README.md ===
# Thinking decoders of mlx-omni-server

A Dafny model of `thinking_decoder.py`. This is the part of the chat server
that separates a model's reasoning ("thinking") from its answer ("content").
It works on streamed chunks (`stream_decode`) and on complete responses
(`decode`). There are two decoders.

- **`DefaultThinkingDecoder`** (module `DefaultThinking`) handles reasoning
  wrapped in one tag pair, `<think>` ... `</think>` by default.
  - Streaming keeps every chunk in an ever-growing buffer and routes each new
    chunk by what that buffer holds.
  - The one-shot parse cuts out the first tag pair. With only an end tag, it
    splits the response at that tag instead.
- **`GptOssThinkingDecoder`** (module `GptOssThinking`) handles the GPT-OSS
  chat format `<|start|>role<|channel|>name<|message|>body<|end|>`.
  - It is a four-state machine that remembers the last marker, the role text
    and the channel name.
  - Message bodies on the `analysis` channel are thinking. Every other body is
    content.
  - `decode` is one stream call with the fields renamed.

The other modules:
- `ThinkingDecoder` turns the abstract base class into a sum type of the two
  decoders.
- `Results` holds the returned dictionaries as datatypes. A `None` value
  becomes `Option.None`.
- `PyStr` defines the Python `str` operations the code uses: `in`, `find`,
  `startswith`, negative slicing, `split(sep, 1)` and `strip()`.

Decoders are immutable values. Each stream call returns the new decoder together
with its delta. The tag-pair decoder's `decode` leaves the decoder alone and
returns only its result; `ThinkingDecoder.Decode` pairs every result with the
decoder afterwards, which for GPT-OSS is the moved state machine.

## Model

All source paths are under `src/mlx_omni_server/chat/mlx/tools/`.

| member | source | states |
|---|---|---|
| ThinkingDecoder.StreamDecode | src/mlx_omni_server/chat/mlx/tools/thinking_decoder.py:18-20 | dispatch keeps the decoder's kind; the tag-pair decoder grows its buffer by the chunk and leaves out exactly one field; the GPT-OSS decoder fills both fields |
| ThinkingDecoder.Decode | src/mlx_omni_server/chat/mlx/tools/thinking_decoder.py:22-24 | dispatch keeps the kind; the tag-pair decoder's state is untouched and its content has no edge whitespace; the GPT-OSS decoder's state and fields are those of one stream call on the whole text |
| DefaultThinking.New | src/mlx_omni_server/chat/mlx/tools/thinking_decoder.py:30-32 | the constructor's defaults: tag `think` and an empty buffer |
| DefaultThinking.StreamDecode | src/mlx_omni_server/chat/mlx/tools/thinking_decoder.py:34-74 | the buffer becomes old buffer + chunk in every case; exactly one of the two delta fields is None; a chunk equal to `<tag>` gives (None, "") and one equal to `</tag>` gives ("", None), whatever came before |
| DefaultThinking.StreamRouting | src/mlx_omni_server/chat/mlx/tools/thinking_decoder.py:52-74 | for a chunk that is not exactly a tag: buffer starts with `<tag>` and has no `</tag>` means thinking, verbatim; the chunk that first brings `</tag>` in gives ("", None); `</tag>` already in the old buffer means content, verbatim; neither start-tag prefix nor end tag means content, verbatim |
| DefaultThinking.EmptyChunk | src/mlx_omni_server/chat/mlx/tools/thinking_decoder.py:53-62 | the empty chunk leaves the buffer unchanged and, although `[:-0]` is empty, routes exactly as the old buffer alone dictates |
| PyStr.DropLast | src/mlx_omni_server/chat/mlx/tools/thinking_decoder.py:56 | `s[:-n]`: the prefix that with the last n characters rebuilds s; empty for n = 0 and for n >= len(s) |
| PyStr.StartsWith | src/mlx_omni_server/chat/mlx/tools/thinking_decoder.py:60 | `s.startswith(p)` holds exactly when p occurs at position 0 |
| PyStr.FindFrom | src/mlx_omni_server/chat/mlx/tools/thinking_decoder.py:164 | `find(p, start)`, as at lines 141, 150 and 164 and in the end-tag search after the start tag: -1 or an occurrence at or after start, with none between start and the result |
| PyStr.FirstAfter | src/mlx_omni_server/chat/mlx/tools/thinking_decoder.py:131 | when p's first character does not recur in p and x holds no p, the first p in x + p + y is the one right after x |
| PyStr.Find | src/mlx_omni_server/chat/mlx/tools/thinking_decoder.py:131 | `find` returns -1 or an occurrence, and no occurrence lies before the result |
| PyStr.Contains | src/mlx_omni_server/chat/mlx/tools/thinking_decoder.py:56-57 | `p in s` holds exactly when some occurrence exists |
| PyStr.SplitOnce | src/mlx_omni_server/chat/mlx/tools/thinking_decoder.py:98 | `split(sep, 1)` gives two parts exactly when sep occurs; the parts joined by sep rebuild the text; the first part ends at the first occurrence |
| PyStr.Strip | src/mlx_omni_server/chat/mlx/tools/thinking_decoder.py:84 | `strip()` cuts only whitespace, from both ends, and leaves none at either end |
| PyStr.StripUnique | src/mlx_omni_server/chat/mlx/tools/thinking_decoder.py:84 | there is exactly one such cut, so `Strip` is the strip |
| PyStr.StripEmpty | src/mlx_omni_server/chat/mlx/tools/thinking_decoder.py:100-104 | a stripped text is empty (`not thinking_content`) exactly when the text is all whitespace |
| DefaultThinking.FindPair | src/mlx_omni_server/chat/mlx/tools/thinking_decoder.py:79-80 | the search finds the leftmost `<tag>` that has a `</tag>` after it, and the nearest such `</tag>` (the lazy group); None means there is no tag pair anywhere |
| DefaultThinking.Decode | src/mlx_omni_server/chat/mlx/tools/thinking_decoder.py:76-114 | in every branch the content, and any thinking, has no leading or trailing whitespace |
| DefaultThinking.CutPair | src/mlx_omni_server/chat/mlx/tools/thinking_decoder.py:82-92 | the regex branch always yields a thinking value; both fields are stripped |
| DefaultThinking.SplitAtEnd | src/mlx_omni_server/chat/mlx/tools/thinking_decoder.py:94-114 | the split branch yields a thinking value only when it is non-empty after stripping; without `</tag>` the result is (strip(response), None) |
| DefaultThinking.DecodeCases | src/mlx_omni_server/chat/mlx/tools/thinking_decoder.py:76-114 | a tag pair always gives a thinking value; a thinking value of "" only comes from a tag pair; with no `</tag>` the whole stripped response is content and thinking is None |
| DefaultThinking.DecodePair | src/mlx_omni_server/chat/mlx/tools/thinking_decoder.py:78-92 | with a tag pair, thinking is the stripped text between the first `<tag>` and the nearest `</tag>` after it, and content is the stripped response with only that span removed |
| DefaultThinking.DecodeLoneEnd | src/mlx_omni_server/chat/mlx/tools/thinking_decoder.py:94-108 | with `</tag>` but no pair: content is the stripped text after the first `</tag>`; thinking is None exactly when the text before it is all whitespace, and otherwise is that text stripped |
| DefaultThinking.PairAfterOpen | src/mlx_omni_server/chat/mlx/tools/thinking_decoder.py:79-80 | for an end tag that opens with its only `<`, and a text a + `</tag>` + y where a opens with `<tag>` and holds no `</tag>`: the lazy pattern matches from the start up to that `</tag>` |
| DefaultThinking.DecodeSeeded | src/mlx_omni_server/chat/mlx/tools/thinking_decoder.py:78-92 | for a tag without `<`: `decode` of `<tag>` x `</tag>` y, with no `</tag>` before the one after x, is content strip(y) and thinking strip(x) |
| DefaultThinking.NoTagStream | src/mlx_omni_server/chat/mlx/tools/thinking_decoder.py:72-74 | for chunks none of which is exactly `<tag>`: with no `<tag>` at the front and no `</tag>` anywhere, the content deltas add up to exactly the streamed text, and no thinking is emitted |
| DefaultThinking.NoTagDecode | src/mlx_omni_server/chat/mlx/tools/thinking_decoder.py:34-114 | with no tag in the text (and no chunk exactly `<tag>`), `decode` of the streamed text gives the stripped join of the content deltas and no thinking, and the stream emits no thinking either |
| DefaultThinking.StreamAll | src/mlx_omni_server/chat/mlx/tools/thinking_decoder.py:34-74 | a run of stream calls gives one delta per chunk and keeps the tag |
| DefaultThinking.StreamAllBuffer | src/mlx_omni_server/chat/mlx/tools/thinking_decoder.py:41-53 | after a run of chunks the buffer is the old buffer followed by all the chunks |
| DefaultThinking.StreamAllAppend | src/mlx_omni_server/chat/mlx/tools/thinking_decoder.py:34-74 | streaming a + b is streaming a, then b from the state a leaves |
| DefaultThinking.StreamJoins | src/mlx_omni_server/chat/mlx/tools/thinking_decoder.py:34-74 | over a + b, the joined thinking and the joined content are those of a followed by those of b |
| DefaultThinking.ThinkingPhase | src/mlx_omni_server/chat/mlx/tools/thinking_decoder.py:59-62 | for chunks none of which is exactly `<tag>`: while the buffer opens with `<tag>` and no `</tag>` has arrived, the thinking deltas add up to exactly the streamed text, and no content is emitted |
| DefaultThinking.ContentPhase | src/mlx_omni_server/chat/mlx/tools/thinking_decoder.py:68-71 | for chunks that are not exactly a tag: once `</tag>` is in the buffer, the content deltas add up to exactly the streamed text, and no thinking is emitted |
| DefaultThinking.EndTagChunk | src/mlx_omni_server/chat/mlx/tools/thinking_decoder.py:44-50 | a chunk that is exactly `</tag>` adds nothing to either channel and goes into the buffer |
| DefaultThinking.ThroughEndTag | src/mlx_omni_server/chat/mlx/tools/thinking_decoder.py:44-62 | for a buffer that opens with `<tag>`, no `</tag>` yet and no chunk exactly `<tag>`: a thinking run followed by a `</tag>` chunk: the tag is kept, the buffer contains `</tag>`, the run's text is the thinking and there is no content |
| DefaultThinking.AlignedEndTag | src/mlx_omni_server/chat/mlx/tools/thinking_decoder.py:39-74 | for a buffer that opens with `<tag>`, chunks before `</tag>` that are not exactly `<tag>` and chunks after it that are not exactly a tag: when `</tag>` arrives as a chunk of its own, the thinking deltas add up to the text before it and the content deltas to the text after it |
| DefaultThinking.StreamMatchesDecode | src/mlx_omni_server/chat/mlx/tools/thinking_decoder.py:34-114 | for a tag without `<`, a buffer seeded with `<tag>`, `</tag>` arriving as a chunk of its own, no chunk before it exactly `<tag>` and no chunk after it exactly a tag: `decode` of the text the buffer ends up holding gives the stripped joins of the stream's content and thinking deltas |
| DefaultThinking.InnerEndTagStream | src/mlx_omni_server/chat/mlx/tools/thinking_decoder.py:63-67 | after a lone `<tag>` chunk, a chunk that brings `</tag>` in emits nothing on either channel |
| DefaultThinking.InnerEndTagLost | src/mlx_omni_server/chat/mlx/tools/thinking_decoder.py:63-92 | stream and decode part ways when `</tag>` arrives inside a chunk: streaming `<tag>` then a`</tag>`b emits nothing, while `decode` of the same text gives thinking strip(a) and content strip(b) |
| DefaultThinking.FreshOpenChunk | src/mlx_omni_server/chat/mlx/tools/thinking_decoder.py:39-114 | for a tag without `<`: a fresh decoder fed `<tag>` as its own first chunk, then chunks with no `</tag>` and none exactly `<tag>`, then `</tag>` as its own chunk, then chunks none of which is exactly a tag: `decode` of the whole text gives the stripped joins of the stream's content and thinking deltas |
| DefaultThinking.LoneEndStream | src/mlx_omni_server/chat/mlx/tools/thinking_decoder.py:44-74 | a fresh decoder fed x, `</tag>` and y (no `<tag>` in the text, no `</tag>` in x, y not exactly `</tag>`): the content deltas join to x + y and no thinking is emitted |
| DefaultThinking.LoneEndLost | src/mlx_omni_server/chat/mlx/tools/thinking_decoder.py:44-108 | stream and decode part ways with an end tag but no start tag: for a tag without `<`, the stream above gives content x + y and no thinking, while `decode` of x`</tag>`y gives content strip(y) and thinking strip(x), or None when x is blank |
| GptOssThinking.New | src/mlx_omni_server/chat/mlx/tools/thinking_decoder.py:120-123 | the constructor's state: waiting after `<|start|>`, role `assistant`, empty channel name |
| GptOssThinking.LiteralShape | src/mlx_omni_server/chat/mlx/tools/thinking_decoder.py:131 | each marker is at least two characters long and opens with the only `<` it contains |
| GptOssThinking.Awaited | src/mlx_omni_server/chat/mlx/tools/thinking_decoder.py:130-176 | each state waits for a marker other than its own: start → channel → message → end → start |
| GptOssThinking.Seek | src/mlx_omni_server/chat/mlx/tools/thinking_decoder.py:131-136 | the marker is found exactly when it occurs; the text before it is the prefix up to its first occurrence and the rest follows the marker; without it the whole text is before and nothing is left |
| GptOssThinking.StepOnce | src/mlx_omni_server/chat/mlx/tools/thinking_decoder.py:129-176 | each pass of the `while` loop leaves strictly less text, so the loop terminates, and no character is both emitted and kept |
| GptOssThinking.StepShape | src/mlx_omni_server/chat/mlx/tools/thinking_decoder.py:129-176 | one pass: the rest is a suffix of the text; the state stays or moves on to the awaited marker, which then occurs in the text; outside a message body nothing is emitted; inside one, the text up to `<|end|>` goes to thinking on the `analysis` channel and to content otherwise |
| GptOssThinking.Feed | src/mlx_omni_server/chat/mlx/tools/thinking_decoder.py:129-176 | the `while` loop: the two deltas together are never longer than the chunk (what each pass does is `StepShape`, and how the loop splits over a + b is `FeedAppend`) |
| GptOssThinking.StreamDecode | src/mlx_omni_server/chat/mlx/tools/thinking_decoder.py:126-181 | both fields are always present (never None), and the new state is the one the loop ends in |
| GptOssThinking.Decode | src/mlx_omni_server/chat/mlx/tools/thinking_decoder.py:183-190 | `decode(T)` moves the state as one stream call on T does and returns its two fields as content and thinking |
| GptOssThinking.StreamAll | src/mlx_omni_server/chat/mlx/tools/thinking_decoder.py:126-181 | a run of stream calls gives one delta per chunk |
| GptOssThinking.SilentOutsideMessage | src/mlx_omni_server/chat/mlx/tools/thinking_decoder.py:130-148 | outside a message body, text without `<|message|>` emits nothing to either delta and never enters a body |
| GptOssThinking.MessageBody | src/mlx_omni_server/chat/mlx/tools/thinking_decoder.py:149-162 | inside a message body, text without `<|end|>` leaves the state unchanged and goes whole to thinking on the `analysis` channel and to content on any other |
| GptOssThinking.SeekMarker | src/mlx_omni_server/chat/mlx/tools/thinking_decoder.py:131-136 | in x + marker + y with no marker in x, the search stops at that marker and yields x and y |
| GptOssThinking.ReadRole | src/mlx_omni_server/chat/mlx/tools/thinking_decoder.py:130-136 | after `<|start|>`, the text up to `<|channel|>` is appended to the role and the channel name restarts empty |
| GptOssThinking.ReadChannel | src/mlx_omni_server/chat/mlx/tools/thinking_decoder.py:140-145 | after `<|channel|>`, the text up to `<|message|>` is appended to the channel name |
| GptOssThinking.ReadBody | src/mlx_omni_server/chat/mlx/tools/thinking_decoder.py:149-162 | a body closed by `<|end|>` goes whole to the delta its channel selects, and reading goes on in the end state |
| GptOssThinking.WholeMessage | src/mlx_omni_server/chat/mlx/tools/thinking_decoder.py:129-162 | a complete `role<|channel|>name<|message|>body<|end|>` from the start state extends the role, sets the channel to exactly `name` and emits the body on the channel it names |
| GptOssThinking.EndThenStart | src/mlx_omni_server/chat/mlx/tools/thinking_decoder.py:163-171 | after `<|end|>`, text before the next `<|start|>` is dropped, and role and channel are kept |
| GptOssThinking.AnalysisThenFinal | src/mlx_omni_server/chat/mlx/tools/thinking_decoder.py:129-176 | an `analysis` message and then a `final` one, in one chunk: the notes are the thinking, the answer is the content, and the two role texts accumulate |
| GptOssThinking.FinalAfterEnd | src/mlx_omni_server/chat/mlx/tools/thinking_decoder.py:149-171 | from the end state, `<|start|>` and a `final` message emit the answer as content and nothing as thinking |
| GptOssThinking.AcrossSuffix | src/mlx_omni_server/chat/mlx/tools/thinking_decoder.py:136 | a boundary no marker straddles still has none straddling it once a prefix has been consumed |
| GptOssThinking.SeekWithin | src/mlx_omni_server/chat/mlx/tools/thinking_decoder.py:131-136 | a marker found in a is found at the same place in a + b |
| GptOssThinking.SeekMerge | src/mlx_omni_server/chat/mlx/tools/thinking_decoder.py:131-139 | a search that finds nothing in a continues in b, unless a marker straddles the boundary |
| GptOssThinking.StepWithin | src/mlx_omni_server/chat/mlx/tools/thinking_decoder.py:129-176 | a pass that finds its marker in a does the same on a + b, with b left over |
| GptOssThinking.StepMerge | src/mlx_omni_server/chat/mlx/tools/thinking_decoder.py:129-176 | a pass that reads all of a, followed by a pass over b, is one pass over a + b |
| GptOssThinking.FeedAppend | src/mlx_omni_server/chat/mlx/tools/thinking_decoder.py:129-176 | when no marker straddles the boundary, feeding a + b gives the state of feeding a then b, and each delta is the concatenation of the two |
| GptOssThinking.StreamAllFeed | src/mlx_omni_server/chat/mlx/tools/thinking_decoder.py:126-190 | when no marker straddles a chunk boundary, streaming the chunks one by one ends in the state of one call on their concatenation, and the per-channel joins of the deltas equal that call's two fields |
| GptOssThinking.SplitMarkerMatters | src/mlx_omni_server/chat/mlx/tools/thinking_decoder.py:149-162 | the alignment condition is needed: inside a message body on a channel other than `analysis`, `<|end|>` cut in two anywhere by a chunk boundary is emitted whole as body text, while in one chunk it closes the message and emits nothing |

## Left out

- Logging: the constructor's `logger.info` line (thinking_decoder.py:124) is a side effect only.
- Warnings: the `print` warnings for text between `<|end|>` and `<|start|>` (thinking_decoder.py:167-175) are side effects only. The dropped text is modelled.
- The regular-expression engine (thinking_decoder.py:79-87) is replaced by two `find`s. `FindPair` is proved to return what the lazy pattern matches.
  - The tag is put into the pattern without escaping, so the model assumes it contains no regex metacharacters.
- Abstract methods (thinking_decoder.py:7-24): the two subclasses become the variants of `ThinkingDecoder.Decoder`. The `Optional` return types collapse because neither decoder ever returns `None`:
  - the `result is None` test at line 185 can never succeed;
  - the `len(parts) == 2` fall-through at line 99 can never happen, since `end_tag in response` already guarantees two parts.
- Channel policy: the marker literals and the `"analysis"` channel name are fixed, as in the code. No classification policy is injected.
- Mutation: both decoders mutate `self`; here each call takes a state and returns the next one.
- `GptOssThinking.StreamAllFeed`: proved only for chunkings in which no marker straddles a boundary. The code does not buffer a marker split across chunks, and `SplitMarkerMatters` shows the property fails without that condition.
- `DefaultThinking.AlignedEndTag`: covers only the case where `</tag>` arrives as a chunk of its own, after a buffer that opened with `<tag>`. When `</tag>` arrives inside a larger chunk, that chunk's text is lost (see below), so no such equality holds.
- `DefaultThinking.StreamMatchesDecode`, `DefaultThinking.FreshOpenChunk` and `DefaultThinking.NoTagDecode`: stream and `decode` are connected only in these cases. The first two need a tag without `<` and `</tag>` as a chunk of its own. In the first the buffer is seeded with `<tag>`; in the second a fresh decoder gets `<tag>` as its first chunk. The third is a text with no tag at all. Outside them the two can differ, for example:
  - with `</tag>` inside a larger chunk, that chunk's text is emitted nowhere (`InnerEndTagLost`);
  - with `</tag>` but no `<tag>`, the stream sends the text before the end tag to content, while `decode` takes it as thinking (`LoneEndLost`);
  - with `<tag>` not at the front of the buffer (after a leading newline chunk, say), the test at line 60 never routes to thinking, so the reasoning becomes stream content, while `decode` still extracts it;
  - a chunk that is exactly `<tag>` after the buffer already opens with `<tag>` emits `""` as thinking (lines 40-42), while `decode` keeps its text in the thinking;
  - a chunk after the end tag that is exactly `<tag>` or `</tag>` emits `""` (lines 40-50), while `decode` keeps its text in the content.

Behaviour of the code worth knowing:
- **End-tag chunk.** The default stream decoder's chunk that first brings `</tag>` into the buffer returns `("", None)`. Any text around the tag in that chunk is emitted nowhere (`InnerEndTagLost`). The `parts` split at line 66 is computed and never used.
- **Start-tag test.** The default stream decoder tests `startswith(<tag>)` on the buffer after the chunk has been appended, not before.
- **Lone end tag.** A response that starts with `</tag>` and holds no `<tag>` ... `</tag>` pair decodes to thinking `None`, because the empty prefix is treated as no thinking. Its content is the stripped rest. When a pair follows, the pattern matches that pair instead.
- **Role is not reset.** The GPT-OSS decoder does not reset the role on `<|start|>`; role texts of successive messages accumulate (`AnalysisThenFinal`). It resets only the channel name, on `<|channel|>`.
- **No buffering.** The GPT-OSS decoder recognises a marker only when the marker lies wholly inside the text of one call.

=== FILE: default_thinking.dfy ===
/**
  `DefaultThinkingDecoder`: reasoning wrapped in one configurable tag pair,
  `<think>` ... `</think>` by default.

  The streaming side keeps every chunk it has been given in an ever-growing
  buffer and classifies each new chunk by looking at that buffer; the one-shot
  side splits a complete response at the first tag pair.
 */
module DefaultThinking {
  import opened PyStr
  import opened Results

  const DefaultTag: string := "think"

  /** The decoder's state: the configured tag and everything streamed so far
      (`thinking_tag` and `accumulated_text`). */
  datatype Decoder = Decoder(tag: string, buffer: string)

  /** `DefaultThinkingDecoder(thinking_tag, init_buffer)`; a prompt that already
      ends in `<think>` seeds the buffer with it. */
  function New(tag: string := DefaultTag, initBuffer: string := ""): Decoder {
    Decoder(tag, initBuffer)
  }

  function OpenTag(tag: string): string {
    "<" + tag + ">"
  }

  function CloseTag(tag: string): string {
    "</" + tag + ">"
  }

  /** A chunk that is neither exactly the start tag nor exactly the end tag. */
  predicate Plain(tag: string, chunk: string) {
    chunk != OpenTag(tag) && chunk != CloseTag(tag)
  }

  /** `stream_decode(chunk)`: the new state and the delta for this chunk. */
  function StreamDecode(d: Decoder, chunk: string): (r: (Decoder, Delta))
    // The buffer grows by exactly the chunk, whatever the case.
    ensures r.0 == Decoder(d.tag, d.buffer + chunk)
    // Exactly one of the two fields is absent.
    ensures r.1.content.None? != r.1.thinking.None?
    // The two exact-tag chunks, whatever came before.
    ensures chunk == OpenTag(d.tag) ==> r.1 == Delta(None, Some(""))
    ensures chunk == CloseTag(d.tag) ==> r.1 == Delta(Some(""), None)
  {
    var endTag := CloseTag(d.tag);
    var startTag := OpenTag(d.tag);
    if chunk == startTag then
      (Decoder(d.tag, d.buffer + chunk), Delta(None, Some("")))
    else if chunk == endTag then
      (Decoder(d.tag, d.buffer + chunk), Delta(Some(""), None))
    else
      var acc := d.buffer + chunk;
      // `accumulated_text[:-len(text)]`: the old buffer, except that an empty
      // chunk gives `[:-0]`, the empty string.
      var before := DropLast(acc, |chunk|);
      var hasEndTagBefore := Contains(before, endTag);
      var hasEndTagNow := Contains(acc, endTag);
      var delta :=
        if StartsWith(acc, startTag) && !hasEndTagNow then Delta(None, Some(chunk))
        else if !hasEndTagBefore && hasEndTagNow then Delta(Some(""), None)
        else if hasEndTagBefore then Delta(Some(chunk), None)
        else Delta(Some(chunk), None);
      (Decoder(d.tag, acc), delta)
  }

  /** How `stream_decode` routes a chunk that is not exactly a tag, stated on
      the buffer before and after the chunk. The four cases cover every such
      chunk. */
  lemma {:induction false} StreamRouting(d: Decoder, chunk: string)
    // Inside the thinking span: the chunk is thinking, verbatim.
    ensures Plain(d.tag, chunk) && StartsWith(d.buffer + chunk, OpenTag(d.tag))
              && !Contains(d.buffer + chunk, CloseTag(d.tag))
            ==> StreamDecode(d, chunk).1 == Delta(None, Some(chunk))
    // The chunk that first brings the end tag in: nothing of it is emitted.
    ensures Plain(d.tag, chunk) && !Contains(d.buffer, CloseTag(d.tag))
              && Contains(d.buffer + chunk, CloseTag(d.tag))
            ==> StreamDecode(d, chunk).1 == Delta(Some(""), None)
    // After the end tag: the chunk is content, verbatim.
    ensures Plain(d.tag, chunk) && Contains(d.buffer, CloseTag(d.tag))
            ==> StreamDecode(d, chunk).1 == Delta(Some(chunk), None)
    // No start tag at the front and no end tag anywhere: content, verbatim.
    ensures Plain(d.tag, chunk) && !StartsWith(d.buffer + chunk, OpenTag(d.tag))
              && !Contains(d.buffer + chunk, CloseTag(d.tag))
            ==> StreamDecode(d, chunk).1 == Delta(Some(chunk), None)
  {
    var acc := d.buffer + chunk;
    if chunk != "" {
      assert DropLast(acc, |chunk|) == d.buffer;
    }
    ContainsAppend(d.buffer, chunk, CloseTag(d.tag));
  }

  /** The empty chunk: `[:-0]` hides the old buffer from the end-tag test, but
      the delta is the same as if it had not. */
  lemma {:induction false} EmptyChunk(d: Decoder)
    ensures StreamDecode(d, "").0 == d
    ensures StreamDecode(d, "").1 ==
      if StartsWith(d.buffer, OpenTag(d.tag)) && !Contains(d.buffer, CloseTag(d.tag))
      then Delta(None, Some(""))
      else Delta(Some(""), None)
  {
    assert d.buffer + "" == d.buffer;
  }

  // ---------------------------------------------------------------------------
  // The one-shot decode.

  /** The tag pair `open ... close` with `open` at `i` and `close` at `j`. */
  ghost predicate PairAt(s: string, open: string, close: string, i: int, j: int) {
    OccursAt(s, open, i) && i + |open| <= j && OccursAt(s, close, j)
  }

  /** What `re.search(open + "([\s\S]*?)" + close, s)` matches: the leftmost
      pair, and for that start the nearest end tag (the lazy group). */
  ghost predicate FirstLazyPair(s: string, open: string, close: string, i: int, j: int) {
    && PairAt(s, open, close, i, j)
    && (forall i', j' :: PairAt(s, open, close, i', j') ==> i <= i')
    && (forall j' :: PairAt(s, open, close, i, j') ==> j <= j')
  }

  /** The regular-expression search, done with two `find`s: the first start tag,
      then the first end tag after it. */
  function FindPair(s: string, open: string, close: string): (r: Option<(int, int)>)
    ensures r.Some? ==> FirstLazyPair(s, open, close, r.value.0, r.value.1)
    ensures r.None? ==> forall i, j :: !PairAt(s, open, close, i, j)
  {
    var i := Find(s, open);
    if i < 0 then None
    else
      var j := FindFrom(s, close, i + |open|);
      if j < 0 then None else Some((i, j))
  }

  /** `decode(response)`: independent of the streaming buffer. */
  function Decode(d: Decoder, response: string): (r: DecodeResult)
    // Content never has whitespace at either end, nor does thinking.
    ensures Stripped(r.content)
    ensures r.thinking.Some? ==> Stripped(r.thinking.value)
  {
    var open := OpenTag(d.tag);
    var close := CloseTag(d.tag);
    match FindPair(response, open, close)
    case Some((i, j)) => CutPair(response, open, close, i, j)
    case None => SplitAtEnd(response, close)
  }

  /** The regular-expression branch: `re.sub(regex, "", response, count=1)`
      removes just the matched span, and the group is the thinking. */
  function CutPair(response: string, open: string, close: string, i: int, j: int): (r: DecodeResult)
    requires 0 <= i && i + |open| <= j && j + |close| <= |response|
    ensures Stripped(r.content) && r.thinking.Some? && Stripped(r.thinking.value)
  {
    DecodeResult(Strip(response[..i] + response[j + |close|..]), Some(Strip(response[i + |open|..j])))
  }

  /** The `split` branch: without a complete pair, the text before the first
      end tag is thinking unless it strips to nothing; without an end tag the
      whole response is content. */
  function SplitAtEnd(response: string, close: string): (r: DecodeResult)
    requires close != ""
    ensures Stripped(r.content)
    ensures r.thinking.Some? ==> Stripped(r.thinking.value) && r.thinking.value != ""
    ensures !Contains(response, close) ==> r == DecodeResult(Strip(response), None)
  {
    var parts := SplitOnce(response, close);
    if |parts| == 2 then
      var thinking := Strip(parts[0]);
      DecodeResult(Strip(parts[1]), if thinking == "" then None else Some(thinking))
    else
      DecodeResult(Strip(response), None)
  }

  /** Which branch a response takes: a complete pair always yields a thinking
      value, possibly empty; an empty thinking value only comes from such a
      pair; and without an end tag the whole response is content. */
  lemma {:induction false} DecodeCases(d: Decoder, response: string)
    ensures (exists i, j :: PairAt(response, OpenTag(d.tag), CloseTag(d.tag), i, j))
            ==> Decode(d, response).thinking.Some?
    ensures Decode(d, response).thinking == Some("")
            ==> exists i, j :: PairAt(response, OpenTag(d.tag), CloseTag(d.tag), i, j)
    ensures !Contains(response, CloseTag(d.tag))
            ==> Decode(d, response) == DecodeResult(Strip(response), None)
  {
    var open, close := OpenTag(d.tag), CloseTag(d.tag);
    match FindPair(response, open, close)
    case Some((i, j)) =>
      assert PairAt(response, open, close, i, j);
    case None =>
  }

  /** With a tag pair present, thinking is the stripped text between the first
      start tag and the nearest end tag after it, and content is the stripped
      response with only that span cut out. */
  lemma {:induction false} DecodePair(d: Decoder, response: string, i: int, j: int)
    requires FirstLazyPair(response, OpenTag(d.tag), CloseTag(d.tag), i, j)
    ensures Decode(d, response) == DecodeResult(
              Strip(response[..i] + response[j + |CloseTag(d.tag)|..]),
              Some(Strip(response[i + |OpenTag(d.tag)|..j])))
  {
    var open, close := OpenTag(d.tag), CloseTag(d.tag);
    assert FindPair(response, open, close) == Some((i, j)) by {
      FindPairIs(response, open, close, i, j);
    }
    assert Decode(d, response) == CutPair(response, open, close, i, j);
  }

  lemma {:induction false} FindPairIs(s: string, open: string, close: string, i: int, j: int)
    requires FirstLazyPair(s, open, close, i, j)
    ensures FindPair(s, open, close) == Some((i, j))
  {
    var r := FindPair(s, open, close);
    FirstLazyPairUnique(s, open, close, i, j, r.value.0, r.value.1);
  }

  lemma {:induction false} FirstLazyPairUnique(s: string, open: string, close: string, i: int, j: int, i2: int, j2: int)
    requires FirstLazyPair(s, open, close, i, j) && FirstLazyPair(s, open, close, i2, j2)
    ensures i == i2 && j == j2
  {
  }

  /** With an end tag but no complete pair, the response splits at the first
      end tag: the stripped text before it is thinking, absent exactly when it
      is all whitespace, and the stripped text after it is content. */
  lemma {:induction false} DecodeLoneEnd(d: Decoder, response: string, k: int)
    requires forall i, j :: !PairAt(response, OpenTag(d.tag), CloseTag(d.tag), i, j)
    requires OccursAt(response, CloseTag(d.tag), k)
    requires forall j :: 0 <= j < k ==> !OccursAt(response, CloseTag(d.tag), j)
    ensures Decode(d, response).content == Strip(response[k + |CloseTag(d.tag)|..])
    ensures Decode(d, response).thinking.None? <==> AllSpace(response[..k])
    ensures Decode(d, response).thinking.Some? ==>
              Decode(d, response).thinking.value == Strip(response[..k])
  {
    var close := CloseTag(d.tag);
    FindIs(response, close, k);
    var parts := SplitOnce(response, close);
    assert parts[0] == response[..k];
    assert parts[1] == response[k + |close|..] by {
      assert response == parts[0] + close + parts[1];
      assert response[k + |close|..] == (parts[0] + close + parts[1])[|parts[0]| + |close|..];
    }
    StripEmpty(response[..k]);
  }

  // ---------------------------------------------------------------------------
  // Streams of chunks.

  /** `stream_decode` called on each chunk in turn: the final state and the
      deltas, one per chunk. */
  function StreamAll(d: Decoder, chunks: seq<string>): (r: (Decoder, seq<Delta>))
    ensures |r.1| == |chunks|
    ensures r.0.tag == d.tag
    decreases |chunks|
  {
    if chunks == [] then (d, [])
    else
      var step := StreamDecode(d, chunks[0]);
      var tail := StreamAll(step.0, chunks[1..]);
      (tail.0, [step.1] + tail.1)
  }

  /** After a run of chunks the buffer holds the old buffer followed by all of
      them. */
  lemma {:induction false} StreamAllBuffer(d: Decoder, chunks: seq<string>)
    ensures StreamAll(d, chunks).0 == Decoder(d.tag, d.buffer + Join(chunks))
    decreases |chunks|
  {
    if chunks != [] {
      var d1 := StreamDecode(d, chunks[0]).0;
      StreamAllBuffer(d1, chunks[1..]);
      JoinCons(chunks[0], chunks);
      AppendAssoc(d.buffer, chunks[0], Join(chunks[1..]));
    }
  }

  /** Streaming `a + b` is streaming `a`, then `b` from where `a` left off. */
  lemma {:induction false} StreamAllAppend(d: Decoder, a: seq<string>, b: seq<string>)
    ensures StreamAll(d, a + b).0 == StreamAll(StreamAll(d, a).0, b).0
    ensures StreamAll(d, a + b).1 == StreamAll(d, a).1 + StreamAll(StreamAll(d, a).0, b).1
    decreases |a|
  {
    if a == [] {
      assert a + b == b;
    } else {
      var step := StreamDecode(d, a[0]);
      assert (a + b)[0] == a[0];
      assert (a + b)[1..] == a[1..] + b;
      StreamAllAppend(step.0, a[1..], b);
      var mid := StreamAll(step.0, a[1..]).0;
      calc {
        StreamAll(d, a + b).1;
        [step.1] + StreamAll(step.0, a[1..] + b).1;
        [step.1] + (StreamAll(step.0, a[1..]).1 + StreamAll(mid, b).1);
        ([step.1] + StreamAll(step.0, a[1..]).1) + StreamAll(mid, b).1;
      }
    }
  }

  /** The joined fragments of `a + b` are those of `a` followed by those of `b`. */
  lemma {:induction false} StreamJoins(d: Decoder, a: seq<string>, b: seq<string>)
    ensures StreamAll(d, a + b).0 == StreamAll(StreamAll(d, a).0, b).0
    ensures JoinThinking(StreamAll(d, a + b).1) ==
              JoinThinking(StreamAll(d, a).1) + JoinThinking(StreamAll(StreamAll(d, a).0, b).1)
    ensures JoinContent(StreamAll(d, a + b).1) ==
              JoinContent(StreamAll(d, a).1) + JoinContent(StreamAll(StreamAll(d, a).0, b).1)
  {
    StreamAllAppend(d, a, b);
    JoinDeltasAppend(StreamAll(d, a).1, StreamAll(StreamAll(d, a).0, b).1);
  }

  lemma {:induction false} JoinCons(x: string, xs: seq<string>)
    requires xs != [] && xs[0] == x
    ensures Join(xs) == x + Join(xs[1..])
  {
  }

  /** One step of `StreamAll`, unfolded. */
  lemma {:induction false} StreamAllCons(d: Decoder, xs: seq<string>)
    requires xs != []
    ensures JoinThinking(StreamAll(d, xs).1) ==
      OrEmpty(StreamDecode(d, xs[0]).1.thinking) + JoinThinking(StreamAll(StreamDecode(d, xs[0]).0, xs[1..]).1)
    ensures JoinContent(StreamAll(d, xs).1) ==
      OrEmpty(StreamDecode(d, xs[0]).1.content) + JoinContent(StreamAll(StreamDecode(d, xs[0]).0, xs[1..]).1)
  {
    var ds := StreamAll(d, xs).1;
    assert ds[1..] == StreamAll(StreamDecode(d, xs[0]).0, xs[1..]).1;
  }

  /** Inside the thinking span, every chunk is thinking, verbatim. */
  lemma {:induction false} ThinkingPhase(d: Decoder, xs: seq<string>)
    requires StartsWith(d.buffer, OpenTag(d.tag))
    requires !Contains(d.buffer + Join(xs), CloseTag(d.tag))
    requires forall i :: 0 <= i < |xs| ==> xs[i] != OpenTag(d.tag)
    ensures JoinThinking(StreamAll(d, xs).1) == Join(xs)
    ensures JoinContent(StreamAll(d, xs).1) == ""
    decreases |xs|
  {
    if xs != [] {
      var x, open, close := xs[0], OpenTag(d.tag), CloseTag(d.tag);
      var acc := d.buffer + x;
      JoinCons(x, xs);
      assert d.buffer + Join(xs) == acc + Join(xs[1..]);
      ContainsAppend(acc, Join(xs[1..]), close);
      // The chunk occurs in the buffer and the end tag does not, so the
      // chunk is not the end tag.
      ContainsSuffix(d.buffer, x);
      assert StartsWith(acc, open) by {
        assert acc[..|open|] == d.buffer[..|open|];
      }
      StreamRouting(d, x);
      StreamAllCons(d, xs);
      ThinkingPhase(StreamDecode(d, x).0, xs[1..]);
    }
  }

  /** With no start tag at the front of the buffer and no end tag anywhere,
      every chunk that is not exactly the start tag is content, verbatim. */
  lemma {:induction false} NoTagStream(d: Decoder, xs: seq<string>)
    requires !StartsWith(d.buffer + Join(xs), OpenTag(d.tag))
    requires !Contains(d.buffer + Join(xs), CloseTag(d.tag))
    requires forall i :: 0 <= i < |xs| ==> xs[i] != OpenTag(d.tag)
    ensures JoinContent(StreamAll(d, xs).1) == Join(xs)
    ensures JoinThinking(StreamAll(d, xs).1) == ""
    decreases |xs|
  {
    if xs != [] {
      var x, open, close := xs[0], OpenTag(d.tag), CloseTag(d.tag);
      var acc := d.buffer + x;
      JoinCons(x, xs);
      assert d.buffer + Join(xs) == acc + Join(xs[1..]);
      ContainsAppend(acc, Join(xs[1..]), close);
      StartsWithAppend(acc, Join(xs[1..]), open);
      // The chunk occurs in the buffer and the end tag does not, so the
      // chunk is not the end tag.
      ContainsSuffix(d.buffer, x);
      StreamRouting(d, x);
      StreamAllCons(d, xs);
      NoTagStream(StreamDecode(d, x).0, xs[1..]);
    }
  }

  /** With no tag in the text, stream and one-shot decode agree: the whole
      text is content, stripped by `decode`, and there is no thinking. */
  lemma {:induction false} NoTagDecode(tag: string, xs: seq<string>)
    requires !StartsWith(Join(xs), OpenTag(tag))
    requires !Contains(Join(xs), CloseTag(tag))
    requires forall i :: 0 <= i < |xs| ==> xs[i] != OpenTag(tag)
    ensures var r := StreamAll(New(tag), xs).1;
            JoinThinking(r) == ""
            && Decode(New(tag), Join(xs)) == DecodeResult(Strip(JoinContent(r)), None)
  {
    AppendEmpty(Join(xs));
    NoTagStream(New(tag), xs);
    DecodeCases(New(tag), Join(xs));
  }

  /** After the end tag has been seen, every chunk that is not exactly a tag is
      content, verbatim. */
  lemma {:induction false} ContentPhase(d: Decoder, ys: seq<string>)
    requires Contains(d.buffer, CloseTag(d.tag))
    requires forall i :: 0 <= i < |ys| ==> Plain(d.tag, ys[i])
    ensures JoinContent(StreamAll(d, ys).1) == Join(ys)
    ensures JoinThinking(StreamAll(d, ys).1) == ""
    decreases |ys|
  {
    if ys != [] {
      StreamRouting(d, ys[0]);
      StreamAllCons(d, ys);
      JoinCons(ys[0], ys);
      ContainsAppend(d.buffer, ys[0], CloseTag(d.tag));
      ContentPhase(StreamDecode(d, ys[0]).0, ys[1..]);
    }
  }

  /** A single end-tag chunk adds nothing to either channel. */
  lemma {:induction false} EndTagChunk(d: Decoder)
    ensures StreamAll(d, [CloseTag(d.tag)]).0 == Decoder(d.tag, d.buffer + CloseTag(d.tag))
    ensures JoinThinking(StreamAll(d, [CloseTag(d.tag)]).1) == ""
    ensures JoinContent(StreamAll(d, [CloseTag(d.tag)]).1) == ""
  {
    var xs := [CloseTag(d.tag)];
    StreamAllCons(d, xs);
    assert xs[1..] == [];
  }

  /** The thinking run and then the end tag as a chunk of its own: the end
      tag is in the buffer and only the run's text has been emitted, as
      thinking. */
  lemma {:induction false} ThroughEndTag(d: Decoder, xs: seq<string>)
    requires StartsWith(d.buffer, OpenTag(d.tag))
    requires !Contains(d.buffer + Join(xs), CloseTag(d.tag))
    requires forall i :: 0 <= i < |xs| ==> xs[i] != OpenTag(d.tag)
    ensures StreamAll(d, xs + [CloseTag(d.tag)]).0.tag == d.tag
    ensures Contains(StreamAll(d, xs + [CloseTag(d.tag)]).0.buffer, CloseTag(d.tag))
    ensures JoinThinking(StreamAll(d, xs + [CloseTag(d.tag)]).1) == Join(xs)
    ensures JoinContent(StreamAll(d, xs + [CloseTag(d.tag)]).1) == ""
  {
    var close := CloseTag(d.tag);
    var d1 := StreamAll(d, xs).0;
    StreamAllBuffer(d, xs);
    ThinkingPhase(d, xs);
    EndTagChunk(d1);
    ContainsSuffix(d1.buffer, close);
    StreamJoins(d, xs, [close]);
    AppendEmpty(Join(xs));
    AppendEmpty("");
  }

  /** When the end tag arrives as a chunk of its own, after a buffer that opened
      with the start tag, the thinking deltas add up to the text streamed before
      it and the content deltas to the text streamed after it. */
  lemma {:induction false} AlignedEndTag(d: Decoder, xs: seq<string>, ys: seq<string>)
    requires StartsWith(d.buffer, OpenTag(d.tag))
    requires !Contains(d.buffer + Join(xs), CloseTag(d.tag))
    requires forall i :: 0 <= i < |xs| ==> xs[i] != OpenTag(d.tag)
    requires forall i :: 0 <= i < |ys| ==> Plain(d.tag, ys[i])
    ensures JoinThinking(StreamAll(d, xs + [CloseTag(d.tag)] + ys).1) == Join(xs)
    ensures JoinContent(StreamAll(d, xs + [CloseTag(d.tag)] + ys).1) == Join(ys)
  {
    var close := CloseTag(d.tag);
    var pre := xs + [close];
    var mid := StreamAll(d, pre);
    var post := StreamAll(mid.0, ys).1;
    assert JoinThinking(mid.1) == Join(xs) && JoinContent(mid.1) == "" && mid.0.tag == d.tag
        && Contains(mid.0.buffer, close) by {
      ThroughEndTag(d, xs);
    }
    assert JoinThinking(post) == "" && JoinContent(post) == Join(ys) by {
      ContentPhase(mid.0, ys);
    }
    StreamJoins(d, pre, ys);
    AppendEmpty(Join(xs));
    AppendEmpty(Join(ys));
  }

  // ---------------------------------------------------------------------------
  // Streaming against the one-shot decode.

  /** The end tag opens with the only `<` it contains, when the tag has none. */
  lemma {:induction false} CloseShape(tag: string)
    requires '<' !in tag
    ensures |CloseTag(tag)| >= 3 && CloseTag(tag)[0] == '<'
    ensures forall k :: 0 < k < |CloseTag(tag)| ==> CloseTag(tag)[k] != '<'
  {
    var close := CloseTag(tag);
    forall k | 0 < k < |close|
      ensures close[k] != '<'
    {
      if 2 <= k < |close| - 1 {
        assert close[k] == tag[k - 2];
      }
    }
  }

  /** In `a + close + y`, where `a` opens with `open` and holds no `close`,
      the regular expression matches from the start of the text up to that
      `close`: no earlier end tag can sit inside `a` or straddle its end. */
  lemma {:induction false} PairAfterOpen(a: string, open: string, close: string, y: string)
    requires |open| <= |a| && StartsWith(a, open)
    requires !Contains(a, close)
    requires |close| > 0 && close[0] == '<'
    requires forall k :: 0 < k < |close| ==> close[k] != '<'
    ensures FirstLazyPair(a + close + y, open, close, 0, |a|)
  {
    var s := a + close + y;
    assert s[..|open|] == a[..|open|];
    FirstAfter(a, close, y);
  }

  /** `decode` of a text that opens with the start tag, has no end tag before
      the one after `x`, and goes on with `y`: thinking is `x` stripped and
      content is `y` stripped. */
  lemma {:induction false} DecodeSeeded(d: Decoder, x: string, y: string)
    requires '<' !in d.tag
    requires !Contains(OpenTag(d.tag) + x, CloseTag(d.tag))
    ensures Decode(d, OpenTag(d.tag) + x + CloseTag(d.tag) + y) == DecodeResult(Strip(y), Some(Strip(x)))
  {
    var open, close := OpenTag(d.tag), CloseTag(d.tag);
    var a := open + x;
    var response := a + close + y;
    CloseShape(d.tag);
    SliceOfAppend(open, x, close + y);
    AppendAssoc(a, close, y);
    PairAfterOpen(a, open, close, y);
    DecodePair(d, response, 0, |a|);
    SliceOfAppend(a, close, y);
    AppendEmpty(y);
  }

  /** The stream and the one-shot decode agree when the buffer was seeded
      with the start tag and the end tag arrives as a chunk of its own: the
      stripped joins of the stream's deltas are `decode`'s two fields for the
      text the buffer ends up holding. */
  lemma {:induction false} StreamMatchesDecode(d: Decoder, xs: seq<string>, ys: seq<string>)
    requires '<' !in d.tag
    requires d.buffer == OpenTag(d.tag)
    requires !Contains(d.buffer + Join(xs), CloseTag(d.tag))
    requires forall i :: 0 <= i < |xs| ==> xs[i] != OpenTag(d.tag)
    requires forall i :: 0 <= i < |ys| ==> Plain(d.tag, ys[i])
    ensures var r := StreamAll(d, xs + [CloseTag(d.tag)] + ys).1;
            Decode(d, d.buffer + Join(xs) + CloseTag(d.tag) + Join(ys))
            == DecodeResult(Strip(JoinContent(r)), Some(Strip(JoinThinking(r))))
  {
    AlignedEndTag(d, xs, ys);
    DecodeSeeded(d, Join(xs), Join(ys));
  }

  /** Where the two part ways: the end tag arriving inside a chunk. Streaming
      `<tag>` and then `a</tag>b` emits nothing on either channel, while
      `decode` of the same text finds thinking `a` and content `b`. */
  lemma {:induction false} InnerEndTagLost(tag: string, a: string, b: string)
    requires '<' !in tag
    requires !Contains(OpenTag(tag) + a, CloseTag(tag))
    ensures var r := StreamAll(New(tag), [OpenTag(tag), a + CloseTag(tag) + b]).1;
            JoinThinking(r) == "" && JoinContent(r) == ""
    ensures Decode(New(tag), OpenTag(tag) + a + CloseTag(tag) + b) == DecodeResult(Strip(b), Some(Strip(a)))
  {
    var close := CloseTag(tag);
    ContainsSuffix(a, close);
    ContainsAppend(a + close, b, close);
    InnerEndTagStream(tag, a + close + b);
    DecodeSeeded(New(tag), a, b);
  }

  /** The stream half of `InnerEndTagLost`: after the start tag alone, a
      chunk that brings the end tag in emits nothing. */
  lemma {:induction false} InnerEndTagStream(tag: string, chunk: string)
    requires Contains(chunk, CloseTag(tag))
    ensures var r := StreamAll(New(tag), [OpenTag(tag), chunk]).1;
            JoinThinking(r) == "" && JoinContent(r) == ""
  {
    var open, close := OpenTag(tag), CloseTag(tag);
    var d := New(tag);
    var d1 := Decoder(tag, open);
    AppendEmpty(open);
    assert StreamDecode(d, open).0 == d1;
    assert !Contains(open, close) by {
      assert Find(open, close) == -1;
    }
    ContainsAppend(open, chunk, close);
    StreamRouting(d1, chunk);
    var xs := [open, chunk];
    StreamAllCons(d, xs);
    assert xs[1..] == [chunk];
    StreamAllCons(d1, [chunk]);
    assert [chunk][1..] == [];
  }

  /** The usual stream from a fresh decoder: `<tag>` as the first chunk of its
      own, the thinking, `</tag>` as a chunk of its own, the answer. Stream
      and one-shot decode agree: the first chunk emits nothing and seeds the
      buffer, and from there `StreamMatchesDecode` applies. */
  lemma {:induction false} FreshOpenChunk(tag: string, xs: seq<string>, ys: seq<string>)
    requires '<' !in tag
    requires !Contains(OpenTag(tag) + Join(xs), CloseTag(tag))
    requires forall i :: 0 <= i < |xs| ==> xs[i] != OpenTag(tag)
    requires forall i :: 0 <= i < |ys| ==> Plain(tag, ys[i])
    ensures var r := StreamAll(New(tag), [OpenTag(tag)] + (xs + [CloseTag(tag)] + ys)).1;
            Decode(New(tag), OpenTag(tag) + Join(xs) + CloseTag(tag) + Join(ys))
            == DecodeResult(Strip(JoinContent(r)), Some(Strip(JoinThinking(r))))
  {
    var open := OpenTag(tag);
    var rest := xs + [CloseTag(tag)] + ys;
    var chunks := [open] + rest;
    var d1 := Decoder(tag, open);
    AppendEmpty(open);
    assert StreamDecode(New(tag), open) == (d1, Delta(None, Some("")));
    assert chunks[0] == open && chunks[1..] == rest;
    StreamAllCons(New(tag), chunks);
    var r1 := StreamAll(d1, rest).1;
    AppendEmpty(JoinContent(r1));
    AppendEmpty(JoinThinking(r1));
    StreamMatchesDecode(d1, xs, ys);
  }

  /** The stream half of `LoneEndLost`: text, a lone `</tag>` chunk and more
      text, with no start tag, all come out as content. */
  lemma {:induction false} LoneEndStream(tag: string, x: string, y: string)
    requires !Contains(x + CloseTag(tag) + y, OpenTag(tag))
    requires !Contains(x, CloseTag(tag))
    requires y != CloseTag(tag)
    ensures var r := StreamAll(New(tag), [x, CloseTag(tag), y]).1;
            JoinContent(r) == x + y && JoinThinking(r) == ""
  {
    var open, close := OpenTag(tag), CloseTag(tag);
    var d := New(tag);
    ContainsAppend(x + close, y, open);
    ContainsAppend(x, close, open);
    ContainsSuffix(x + close, y);
    assert !StartsWith(x, open);
    AppendEmpty(x);
    StreamRouting(d, x);
    var d1 := Decoder(tag, x);
    var chunks := [x, close, y];
    assert chunks[1..] == [close, y] && [close, y][1..] == [y] && [y][1..] == [];
    StreamAllCons(d, chunks);
    StreamAllCons(d1, [close, y]);
    var d2 := Decoder(tag, x + close);
    ContainsSuffix(x, close);
    StreamRouting(d2, y);
    StreamAllCons(d2, [y]);
    AppendEmpty(y);
  }

  /** Where the two part ways: an end tag with no start tag. Streaming `x`,
      `</tag>` and `y` gives content `x + y` and no thinking, while `decode`
      of the same text takes `x` as thinking (unless it is blank) and only
      `y` as content. */
  lemma {:induction false} LoneEndLost(tag: string, x: string, y: string)
    requires '<' !in tag
    requires !Contains(x + CloseTag(tag) + y, OpenTag(tag))
    requires !Contains(x, CloseTag(tag))
    requires y != CloseTag(tag)
    ensures var r := StreamAll(New(tag), [x, CloseTag(tag), y]).1;
            JoinContent(r) == x + y && JoinThinking(r) == ""
    ensures Decode(New(tag), x + CloseTag(tag) + y)
            == DecodeResult(Strip(y), if AllSpace(x) then None else Some(Strip(x)))
  {
    var close := CloseTag(tag);
    LoneEndStream(tag, x, y);
    CloseShape(tag);
    FirstAfter(x, close, y);
    SliceOfAppend(x, close, y);
    DecodeLoneEnd(New(tag), x + close + y, |x|);
  }
}

=== FILE: gpt_oss_thinking.dfy ===
/**
  `GptOssThinkingDecoder`: the four control markers of the GPT-OSS chat format,
  `<|start|>role<|channel|>name<|message|>body<|end|>`, read by a state machine.

  The machine remembers the last marker seen and collects the role and the
  channel name; message bodies are emitted, as thinking when the channel is
  `analysis` and as content otherwise. Nothing is buffered: a marker is only
  recognised when it lies wholly inside one chunk.
 */
module GptOssThinking {
  import opened PyStr
  import opened Results

  /** The four markers; `last_tag` is always one of them. */
  datatype Marker = StartTag | ChannelTag | MessageTag | EndTag

  function Literal(m: Marker): string {
    match m
    case StartTag => "<|start|>"
    case ChannelTag => "<|channel|>"
    case MessageTag => "<|message|>"
    case EndTag => "<|end|>"
  }

  /** Every marker opens with the only `<` it contains. */
  lemma {:induction false} LiteralShape(m: Marker)
    ensures |Literal(m)| >= 2 && Literal(m)[0] == '<'
    ensures forall i :: 0 < i < |Literal(m)| ==> Literal(m)[i] != '<'
  {
  }

  /** The marker looked for after `m`: the format's fixed cycle. */
  function Awaited(m: Marker): (n: Marker)
    ensures n != m
  {
    match m
    case StartTag => ChannelTag
    case ChannelTag => MessageTag
    case MessageTag => EndTag
    case EndTag => StartTag
  }

  /** The only channel whose message bodies count as thinking. */
  const AnalysisChannel: string := "analysis"

  /** `last_tag`, `role` and `channel`. */
  datatype State = State(lastTag: Marker, role: string, channel: string)

  /** The constructor's state; the log line it writes is not modelled. */
  function New(): State {
    State(StartTag, "assistant", "")
  }

  // ---------------------------------------------------------------------------
  // One pass of the loop.

  /** The text around the first occurrence of a marker, if any. */
  datatype Cut = Cut(found: bool, before: string, rest: string)

  /** `idx = text.find(marker)`, then `text[:idx]` and `text[idx + len(marker):]`. */
  function Seek(text: string, marker: string): (c: Cut)
    requires marker != ""
    ensures c.found <==> Contains(text, marker)
    ensures c.found ==> Find(text, marker) == |c.before|
                        && c.before == text[..|c.before|]
                        && c.rest == text[|c.before| + |marker|..]
    ensures !c.found ==> c.before == text && c.rest == ""
  {
    var k := Find(text, marker);
    if k >= 0 then Cut(true, text[..k], text[k + |marker|..])
    else Cut(false, text, "")
  }

  /** What one pass of the `while` loop produces: the new state, the text still
      to read, and what it appended to each delta. */
  datatype Step = Step(next: State, rest: string, content: string, thinking: string)

  /** One pass of the loop on a non-empty remaining text. */
  function StepOnce(st: State, text: string): (s: Step)
    requires text != ""
    // The loop makes progress, and no character is both read on and emitted.
    ensures |s.rest| < |text|
    ensures |s.content| + |s.thinking| + |s.rest| <= |text|
  {
    // Each state searches for the one marker it waits for.
    var c := Seek(text, Literal(Awaited(st.lastTag)));
    match st.lastTag
    case StartTag =>
      if c.found then Step(State(ChannelTag, st.role + c.before, ""), c.rest, "", "")
      else Step(State(StartTag, st.role + text, st.channel), "", "", "")
    case ChannelTag =>
      if c.found then Step(State(MessageTag, st.role, st.channel + c.before), c.rest, "", "")
      else Step(State(ChannelTag, st.role, st.channel + text), "", "", "")
    case MessageTag =>
      var next := if c.found then State(EndTag, st.role, st.channel) else st;
      if st.channel == AnalysisChannel then Step(next, c.rest, "", c.before)
      else Step(next, c.rest, c.before, "")
    case EndTag =>
      // Text before `<|start|>`, or all of it when there is none, is dropped
      // (the source prints a warning).
      if c.found then Step(State(StartTag, st.role, st.channel), c.rest, "", "")
      else Step(st, "", "", "")
  }

  // ---------------------------------------------------------------------------
  // The whole loop, and the two entry points.

  /** The final state and the two accumulated deltas. */
  datatype Outcome = Outcome(next: State, content: string, thinking: string)

  /** The `while len(text) > 0` loop: passes until the text is used up.
      Every emitted character comes from the text, at most once. */
  function Feed(st: State, text: string): (o: Outcome)
    ensures |o.content| + |o.thinking| <= |text|
    decreases |text|
  {
    if text == "" then Outcome(st, "", "")
    else
      var s := StepOnce(st, text);
      var o := Feed(s.next, s.rest);
      Outcome(o.next, s.content + o.content, s.thinking + o.thinking)
  }

  /** `stream_decode(chunk)`: both fields are always present. */
  function StreamDecode(st: State, chunk: string): (r: (State, Delta))
    ensures r.1.content.Some? && r.1.thinking.Some?
    ensures r.0 == Feed(st, chunk).next
  {
    var o := Feed(st, chunk);
    (o.next, Delta(Some(o.content), Some(o.thinking)))
  }

  /** `decode(response)`: one stream call on the whole response, with the
      fields renamed. It moves the state exactly as that call does. */
  function Decode(st: State, response: string): (r: (State, DecodeResult))
    ensures r.0 == StreamDecode(st, response).0
    ensures Some(r.1.content) == StreamDecode(st, response).1.content
    ensures r.1.thinking == StreamDecode(st, response).1.thinking
  {
    var (next, delta) := StreamDecode(st, response);
    (next, DecodeResult(OrEmpty(delta.content), delta.thinking))
  }

  /** `stream_decode` on each chunk in turn. */
  function StreamAll(st: State, chunks: seq<string>): (r: (State, seq<Delta>))
    ensures |r.1| == |chunks|
    decreases |chunks|
  {
    if chunks == [] then (st, [])
    else
      var step := StreamDecode(st, chunks[0]);
      var tail := StreamAll(step.0, chunks[1..]);
      (tail.0, [step.1] + tail.1)
  }

  // ---------------------------------------------------------------------------
  // Where text goes.

  /** What one pass does. */
  lemma {:induction false} StepShape(st: State, text: string)
    requires text != ""
    // The unread text is a suffix of the text.
    ensures var s := StepOnce(st, text);
            s.rest == text[|text| - |s.rest|..]
    // The state stays, or moves on to the marker it was waiting for, which
    // then occurs in the text.
    ensures var s := StepOnce(st, text);
            s.next.lastTag == st.lastTag
            || (s.next.lastTag == Awaited(st.lastTag) && Contains(text, Literal(Awaited(st.lastTag))))
    // Outside a message body nothing is emitted.
    ensures st.lastTag != MessageTag ==> StepOnce(st, text).content == "" && StepOnce(st, text).thinking == ""
    // Inside one, the text up to the first `<|end|>` goes to exactly one of
    // the two deltas, chosen by the channel name.
    ensures st.lastTag == MessageTag && st.channel == AnalysisChannel
            ==> StepOnce(st, text).content == "" && StepOnce(st, text).thinking == Seek(text, Literal(EndTag)).before
    ensures st.lastTag == MessageTag && st.channel != AnalysisChannel
            ==> StepOnce(st, text).thinking == "" && StepOnce(st, text).content == Seek(text, Literal(EndTag)).before
  {
    var c := Seek(text, Literal(Awaited(st.lastTag)));
    if c.found {
      assert text[|text| - |c.rest|..] == c.rest;
      assert Contains(text, Literal(Awaited(st.lastTag)));
    }
  }

  lemma {:induction false} FeedStep(st: State, text: string)
    requires text != ""
    ensures Feed(st, text).next == Feed(StepOnce(st, text).next, StepOnce(st, text).rest).next
    ensures Feed(st, text).content ==
              StepOnce(st, text).content + Feed(StepOnce(st, text).next, StepOnce(st, text).rest).content
    ensures Feed(st, text).thinking ==
              StepOnce(st, text).thinking + Feed(StepOnce(st, text).next, StepOnce(st, text).rest).thinking
  {
  }

  /** Outside a message body, and with no `<|message|>` ahead, a chunk emits
      nothing at all and never enters a message body. */
  lemma {:induction false} SilentOutsideMessage(st: State, text: string)
    requires st.lastTag != MessageTag
    requires !Contains(text, Literal(MessageTag))
    ensures Feed(st, text).content == "" && Feed(st, text).thinking == ""
    ensures Feed(st, text).next.lastTag != MessageTag
    decreases |text|
  {
    if text != "" {
      var s := StepOnce(st, text);
      StepShape(st, text);
      assert text == text[..|text| - |s.rest|] + s.rest;
      ContainsAppend(text[..|text| - |s.rest|], s.rest, Literal(MessageTag));
      SilentOutsideMessage(s.next, s.rest);
      FeedStep(st, text);
      AppendEmpty("");
    }
  }

  /** Inside a message body with no `<|end|>` ahead, the whole chunk goes to
      thinking when the channel is `analysis` and to content otherwise, and the
      state does not change. */
  lemma {:induction false} MessageBody(st: State, text: string)
    requires st.lastTag == MessageTag
    requires !Contains(text, Literal(EndTag))
    ensures Feed(st, text).next == st
    ensures Feed(st, text).content == if st.channel == AnalysisChannel then "" else text
    ensures Feed(st, text).thinking == if st.channel == AnalysisChannel then text else ""
  {
    if text != "" {
      FeedStep(st, text);
      AppendEmpty(text);
      AppendEmpty("");
    }
  }

  /** A marker that is not in `x` is found right after `x`: no occurrence can
      start inside `x` and run into the marker, because the marker's `<` is
      its first character only. */
  lemma {:induction false} SeekMarker(t: string, x: string, m: Marker, y: string)
    requires t == x + Literal(m) + y
    requires !Contains(x, Literal(m))
    ensures Seek(t, Literal(m)) == Cut(true, x, y)
  {
    var lit := Literal(m);
    LiteralShape(m);
    FirstAfter(x, lit, y);
    FindIs(t, lit, |x|);
    assert t[..|x|] == x;
    assert t[|x| + |lit|..] == y;
  }

  /** The text of one message: `role<|channel|>name<|message|>body<|end|>`. */
  function Message(role: string, channel: string, body: string): string {
    role + Literal(ChannelTag) + channel + Literal(MessageTag) + body + Literal(EndTag)
  }

  /** A complete message, `role<|channel|>name<|message|>body<|end|>`, read
      from the start state: the role text is added to the role, the channel
      is exactly `name`, the body goes whole to the delta the channel selects,
      and reading goes on after `<|end|>` in the end state. */
  lemma {:induction false} WholeMessage(st: State, role: string, channel: string, body: string, rest: string)
    requires st.lastTag == StartTag
    requires !Contains(role, Literal(ChannelTag))
    requires !Contains(channel, Literal(MessageTag))
    requires !Contains(body, Literal(EndTag))
    ensures var o := Feed(State(EndTag, st.role + role, channel), rest);
            Feed(st, Message(role, channel, body) + rest) == Outcome(o.next,
                                   (if channel == AnalysisChannel then "" else body) + o.content,
                                   (if channel == AnalysisChannel then body else "") + o.thinking)
  {
    var ch, msg, end := Literal(ChannelTag), Literal(MessageTag), Literal(EndTag);
    assert Message(role, channel, body) + rest == role + ch + (channel + msg + (body + end + rest));
    ReadRole(st, role, channel + msg + (body + end + rest));
    ReadChannel(State(ChannelTag, st.role + role, ""), channel, body + end + rest);
    AppendEmpty(channel);
    ReadBody(State(MessageTag, st.role + role, channel), body, rest);
  }

  /** After `<|start|>`, the text up to `<|channel|>` is added to the role
      and the decoder goes on to read the channel name, from scratch. */
  lemma {:induction false} ReadRole(st: State, role: string, rest: string)
    requires st.lastTag == StartTag
    requires !Contains(role, Literal(ChannelTag))
    ensures Feed(st, role + Literal(ChannelTag) + rest)
            == Feed(State(ChannelTag, st.role + role, ""), rest)
  {
    var t := role + Literal(ChannelTag) + rest;
    SeekMarker(t, role, ChannelTag, rest);
    FeedStep(st, t);
    AppendEmpty(Feed(State(ChannelTag, st.role + role, ""), rest).content);
    AppendEmpty(Feed(State(ChannelTag, st.role + role, ""), rest).thinking);
  }

  /** After `<|channel|>`, the text up to `<|message|>` is added to the
      channel name and the decoder goes on to the message body. */
  lemma {:induction false} ReadChannel(st: State, channel: string, rest: string)
    requires st.lastTag == ChannelTag
    requires !Contains(channel, Literal(MessageTag))
    ensures Feed(st, channel + Literal(MessageTag) + rest)
            == Feed(State(MessageTag, st.role, st.channel + channel), rest)
  {
    var t := channel + Literal(MessageTag) + rest;
    SeekMarker(t, channel, MessageTag, rest);
    FeedStep(st, t);
    AppendEmpty(Feed(State(MessageTag, st.role, st.channel + channel), rest).content);
    AppendEmpty(Feed(State(MessageTag, st.role, st.channel + channel), rest).thinking);
  }

  /** After `<|message|>`, a body closed by `<|end|>` goes whole to the delta
      the channel selects, and reading goes on in the end state. */
  lemma {:induction false} ReadBody(st: State, body: string, rest: string)
    requires st.lastTag == MessageTag
    requires !Contains(body, Literal(EndTag))
    ensures var o := Feed(State(EndTag, st.role, st.channel), rest);
            Feed(st, body + Literal(EndTag) + rest)
            == Outcome(o.next,
                       (if st.channel == AnalysisChannel then "" else body) + o.content,
                       (if st.channel == AnalysisChannel then body else "") + o.thinking)
  {
    var t := body + Literal(EndTag) + rest;
    SeekMarker(t, body, EndTag, rest);
    FeedStep(st, t);
  }

  /** After `<|end|>`, everything up to the next `<|start|>` is dropped, and
      reading goes on in the start state with role and channel kept. */
  lemma {:induction false} EndThenStart(st: State, dropped: string, rest: string)
    requires st.lastTag == EndTag
    requires !Contains(dropped, Literal(StartTag))
    ensures Feed(st, dropped + Literal(StartTag) + rest)
            == Feed(State(StartTag, st.role, st.channel), rest)
  {
    var t := dropped + Literal(StartTag) + rest;
    SeekMarker(t, dropped, StartTag, rest);
    FeedStep(st, t);
    AppendEmpty(Feed(State(StartTag, st.role, st.channel), rest).content);
    AppendEmpty(Feed(State(StartTag, st.role, st.channel), rest).thinking);
  }

  /** The format's usual reply: an `analysis` message and then a `final` one.
      The notes become the thinking, the answer the content, and both role
      texts are appended to the role, which the second `<|start|>` does not
      reset. */
  lemma {:induction false} AnalysisThenFinal(st: State, role1: string, notes: string, role2: string, answer: string)
    requires st.lastTag == StartTag
    requires !Contains(role1, Literal(ChannelTag)) && !Contains(role2, Literal(ChannelTag))
    requires !Contains(notes, Literal(EndTag)) && !Contains(answer, Literal(EndTag))
    ensures Feed(st, Message(role1, "analysis", notes) + Literal(StartTag) + Message(role2, "final", answer))
            == Outcome(State(EndTag, st.role + role1 + role2, "final"), answer, notes)
  {
    var start, m2 := Literal(StartTag), Message(role2, "final", answer);
    assert !Contains("analysis", Literal(MessageTag));
    AppendAssoc(Message(role1, "analysis", notes), start, m2);
    WholeMessage(st, role1, "analysis", notes, start + m2);
    FinalAfterEnd(State(EndTag, st.role + role1, "analysis"), role2, answer);
    AppendEmpty(notes);
    AppendAssoc(st.role, role1, role2);
  }

  /** From the end state, `<|start|>` and a `final` message: the answer is
      content and the decoder is back in the end state. */
  lemma {:induction false} FinalAfterEnd(st: State, role: string, answer: string)
    requires st.lastTag == EndTag
    requires !Contains(role, Literal(ChannelTag)) && !Contains(answer, Literal(EndTag))
    ensures Feed(st, Literal(StartTag) + Message(role, "final", answer))
            == Outcome(State(EndTag, st.role + role, "final"), answer, "")
  {
    var start, m := Literal(StartTag), Message(role, "final", answer);
    assert !Contains("final", Literal(MessageTag));
    assert "" + start + m == start + m;
    EndThenStart(st, "", m);
    AppendEmpty(m);
    WholeMessage(State(StartTag, st.role, st.channel), role, "final", answer, "");
    AppendEmpty(answer);
  }

  // ---------------------------------------------------------------------------
  // Splitting a text into chunks.

  /** No occurrence of any marker starts before `pos` and ends after it. */
  ghost predicate NoMarkerAcross(text: string, pos: int) {
    forall m: Marker, j :: j < pos < j + |Literal(m)| ==> !OccursAt(text, Literal(m), j)
  }

  /** A boundary that no marker straddles in a text still straddles none in a
      suffix of it. */
  lemma {:induction false} AcrossSuffix(t: string, k: int, pos: int)
    requires 0 <= k <= |t| && k <= pos
    requires NoMarkerAcross(t, pos)
    ensures NoMarkerAcross(t[k..], pos - k)
  {
    forall m: Marker, j | j < pos - k < j + |Literal(m)|
      ensures !OccursAt(t[k..], Literal(m), j)
    {
      OccursInDrop(t, k, Literal(m), j);
    }
  }

  /** A pass that finds its marker inside `a` does the same on `a + b`, and
      leaves `b` after its own rest. */
  lemma {:induction false} StepWithin(st: State, a: string, b: string)
    requires a != "" && Seek(a, Literal(Awaited(st.lastTag))).found
    ensures StepOnce(st, a + b).next == StepOnce(st, a).next
    ensures StepOnce(st, a + b).rest == StepOnce(st, a).rest + b
    ensures StepOnce(st, a + b).content == StepOnce(st, a).content
    ensures StepOnce(st, a + b).thinking == StepOnce(st, a).thinking
  {
    SeekWithin(a, b, Awaited(st.lastTag));
  }

  /** A marker found in `a` is found at the same place in `a + b`. */
  lemma {:induction false} SeekWithin(a: string, b: string, m: Marker)
    requires Seek(a, Literal(m)).found
    ensures var c := Seek(a, Literal(m));
            Seek(a + b, Literal(m)) == Cut(true, c.before, c.rest + b)
  {
    var lit := Literal(m);
    var k := Find(a, lit);
    FindInPrefix(a, b, lit);
    assert (a + b)[..k] == a[..k];
    assert (a + b)[k + |lit|..] == a[k + |lit|..] + b;
  }

  /** A pass that reads all of `a` without finding its marker, followed by a
      pass over `b`, is one pass over `a + b`, provided no marker straddles the
      boundary. */
  lemma {:induction false} StepMerge(st: State, a: string, b: string)
    requires a != "" && b != "" && !Seek(a, Literal(Awaited(st.lastTag))).found
    requires NoMarkerAcross(a + b, |a|)
    ensures StepOnce(st, a + b).next == StepOnce(StepOnce(st, a).next, b).next
    ensures StepOnce(st, a + b).rest == StepOnce(StepOnce(st, a).next, b).rest
    ensures StepOnce(st, a + b).content ==
              StepOnce(st, a).content + StepOnce(StepOnce(st, a).next, b).content
    ensures StepOnce(st, a + b).thinking ==
              StepOnce(st, a).thinking + StepOnce(StepOnce(st, a).next, b).thinking
  {
    var lit := Literal(Awaited(st.lastTag));
    SeekMerge(a, b, Awaited(st.lastTag));
    var c := Seek(b, lit);
    AppendAssoc(st.role, a, c.before);
    AppendAssoc(st.channel, a, c.before);
    AppendEmpty(a);
    AppendEmpty("");
  }

  /** A search that reads all of `a` without finding the marker continues in
      `b`, provided no occurrence straddles the boundary. */
  lemma {:induction false} SeekMerge(a: string, b: string, m: Marker)
    requires !Seek(a, Literal(m)).found
    requires NoMarkerAcross(a + b, |a|)
    ensures var c := Seek(b, Literal(m));
            Seek(a + b, Literal(m)) == Cut(c.found, a + c.before, c.rest)
  {
    var lit := Literal(m);
    var k := Find(a + b, lit);
    if 0 <= k < |a| {
      if k + |lit| <= |a| {
        OccursBackInPrefix(a, b, lit, k);
      }
      assert false;
    }
    FindPastPrefix(a, b, lit);
    var c := Seek(b, lit);
    if c.found {
      assert (a + b)[..k] == a + c.before;
      assert (a + b)[k + |lit|..] == c.rest;
    } else {
      AppendEmpty(a + b);
    }
  }

  /** Feeding `a + b` in one call is feeding `a` and then `b`, when no marker
      straddles the boundary between them: same final state, and each delta
      the concatenation of the two. */
  lemma {:induction false} FeedAppend(st: State, a: string, b: string)
    requires NoMarkerAcross(a + b, |a|)
    ensures Feed(st, a + b).next == Feed(Feed(st, a).next, b).next
    ensures Feed(st, a + b).content == Feed(st, a).content + Feed(Feed(st, a).next, b).content
    ensures Feed(st, a + b).thinking == Feed(st, a).thinking + Feed(Feed(st, a).next, b).thinking
    decreases |a|, 1
  {
    if a == "" {
      assert a + b == b;
      AppendEmpty(Feed(st, b).content);
      AppendEmpty(Feed(st, b).thinking);
    } else if Seek(a, Literal(Awaited(st.lastTag))).found {
      FeedAppendFound(st, a, b);
    } else if b == "" {
      assert a + b == a;
      AppendEmpty(Feed(st, a).content);
      AppendEmpty(Feed(st, a).thinking);
    } else {
      FeedAppendMerge(st, a, b);
    }
  }

  /** `FeedAppend` when the first pass finds its marker inside `a`: both sides
      continue from the same state, on the rest of `a` followed by `b`. */
  lemma {:induction false} FeedAppendFound(st: State, a: string, b: string)
    requires a != "" && Seek(a, Literal(Awaited(st.lastTag))).found
    requires NoMarkerAcross(a + b, |a|)
    ensures Feed(st, a + b).next == Feed(Feed(st, a).next, b).next
    ensures Feed(st, a + b).content == Feed(st, a).content + Feed(Feed(st, a).next, b).content
    ensures Feed(st, a + b).thinking == Feed(st, a).thinking + Feed(Feed(st, a).next, b).thinking
    decreases |a|, 0
  {
    var s := StepOnce(st, a);
    FeedStep(st, a);
    FoundRest(st, a, b);
    FeedAppend(s.next, s.rest, b);
    var mid := Feed(s.next, s.rest);
    AppendAssoc(s.content, mid.content, Feed(mid.next, b).content);
    AppendAssoc(s.thinking, mid.thinking, Feed(mid.next, b).thinking);
  }

  /** When the first pass finds its marker inside `a`, feeding `a + b` is that
      pass followed by feeding its rest and `b`, and no marker straddles the
      boundary between the two. */
  lemma {:induction false} FoundRest(st: State, a: string, b: string)
    requires a != "" && Seek(a, Literal(Awaited(st.lastTag))).found
    requires NoMarkerAcross(a + b, |a|)
    ensures var s := StepOnce(st, a);
            Feed(st, a + b) == Outcome(Feed(s.next, s.rest + b).next,
                                       s.content + Feed(s.next, s.rest + b).content,
                                       s.thinking + Feed(s.next, s.rest + b).thinking)
    ensures NoMarkerAcross(StepOnce(st, a).rest + b, |StepOnce(st, a).rest|)
  {
    FeedStep(st, a + b);
    StepWithin(st, a, b);
    StepShape(st, a);
    RestAcross(StepOnce(st, a).rest, a, b);
  }

  /** A suffix `r` of `a` keeps the boundary before `b` free of markers. */
  lemma {:induction false} RestAcross(r: string, a: string, b: string)
    requires |r| <= |a| && r == a[|a| - |r|..]
    requires NoMarkerAcross(a + b, |a|)
    ensures NoMarkerAcross(r + b, |r|)
  {
    assert (a + b)[|a| - |r|..] == r + b;
    AcrossSuffix(a + b, |a| - |r|, |a|);
  }

  /** `FeedAppend` when the first pass reads all of `a`: it and the first pass
      over `b` make up the first pass over `a + b`. */
  lemma {:induction false} FeedAppendMerge(st: State, a: string, b: string)
    requires a != "" && b != "" && !Seek(a, Literal(Awaited(st.lastTag))).found
    requires NoMarkerAcross(a + b, |a|)
    ensures Feed(st, a + b).next == Feed(Feed(st, a).next, b).next
    ensures Feed(st, a + b).content == Feed(st, a).content + Feed(Feed(st, a).next, b).content
    ensures Feed(st, a + b).thinking == Feed(st, a).thinking + Feed(Feed(st, a).next, b).thinking
  {
    var s := StepOnce(st, a);
    FeedStep(st, a);
    FeedStep(st, a + b);
    assert s.rest == "";
    StepMerge(st, a, b);
    FeedStep(s.next, b);
    var s2 := StepOnce(s.next, b);
    var tail := Feed(s2.next, s2.rest);
    AppendEmpty(s.content);
    AppendEmpty(s.thinking);
    AppendAssoc(s.content, s2.content, tail.content);
    AppendAssoc(s.thinking, s2.thinking, tail.thinking);
  }

  /** No marker straddles any boundary between consecutive chunks. */
  ghost predicate Aligned(chunks: seq<string>)
    decreases |chunks|
  {
    |chunks| <= 1
    || (NoMarkerAcross(chunks[0] + Join(chunks[1..]), |chunks[0]|) && Aligned(chunks[1..]))
  }

  /** Streaming chunks one by one ends in the state a single call on their
      concatenation ends in, and the deltas of each kind add up to what that
      call returns, when no marker straddles a chunk boundary. */
  lemma {:induction false} StreamAllFeed(st: State, chunks: seq<string>)
    requires Aligned(chunks)
    ensures StreamAll(st, chunks).0 == Feed(st, Join(chunks)).next
    ensures JoinContent(StreamAll(st, chunks).1) == Feed(st, Join(chunks)).content
    ensures JoinThinking(StreamAll(st, chunks).1) == Feed(st, Join(chunks)).thinking
    decreases |chunks|
  {
    if chunks != [] {
      var x, xs := chunks[0], chunks[1..];
      var st1 := Feed(st, x).next;
      assert Join(chunks) == x + Join(xs);
      var ds := StreamAll(st, chunks).1;
      assert ds[1..] == StreamAll(st1, xs).1;
      if xs == [] {
        assert Join(xs) == "";
        AppendEmpty(x);
        AppendEmpty(Feed(st, x).content);
        AppendEmpty(Feed(st, x).thinking);
      } else {
        FeedAppend(st, x, Join(xs));
        StreamAllFeed(st1, xs);
      }
    }
  }

  /** The alignment condition cannot be dropped: an `<|end|>` cut in two by a
      chunk boundary is not recognised, and its pieces are emitted as body
      text, while the same text in one chunk closes the message. */
  lemma {:induction false} SplitMarkerMatters(st: State, a: string, b: string)
    requires st.lastTag == MessageTag && st.channel != AnalysisChannel
    requires a != "" && b != "" && a + b == Literal(EndTag)
    ensures JoinContent(StreamAll(st, [a, b]).1) == Literal(EndTag)
    ensures Feed(st, a + b).content == ""
  {
    var end := Literal(EndTag);
    assert !Contains(a, end) && !Contains(b, end);
    MessageBody(st, a);
    MessageBody(st, b);
    var ds := StreamAll(st, [a, b]).1;
    assert [a, b][1..] == [b];
    assert [b][1..] == [];
    assert StreamAll(st, [b]).1 == [Delta(Some(b), Some(""))];
    assert ds == [Delta(Some(a), Some(""))] + [Delta(Some(b), Some(""))];
    assert JoinContent(ds) == a + JoinContent(ds[1..]);
    AppendEmpty(b);
    assert !Contains("", end);
    assert "" + end + "" == end;
    ReadBody(st, "", "");
  }
}

=== FILE: py_str.dfy ===
/**
  The handful of Python `str` operations the thinking decoders rely on, written
  out over `string` (a `seq<char>`): `sub in s`, `s.startswith(p)`, `s.find(p, i)`,
  the negative slice `s[:-n]` and `s.strip()`.
 */
module PyStr {

  /** `p` occurs in `s` starting at index `i` (Python: `s[i:i + len(p)] == p`). */
  predicate OccursAt(s: string, p: string, i: int) {
    0 <= i && i + |p| <= |s| && s[i..i + |p|] == p
  }

  /** Python `s.find(p, start)`: the first index at or after `start` where `p`
      occurs, or -1 when there is none. */
  function FindFrom(s: string, p: string, start: nat): (k: int)
    decreases |s| - start
    ensures k == -1 || (start <= k && OccursAt(s, p, k))
    ensures forall j :: start <= j && (k == -1 || j < k) ==> !OccursAt(s, p, j)
  {
    if start + |p| > |s| then -1
    else if s[start..start + |p|] == p then start
    else FindFrom(s, p, start + 1)
  }

  /** Python `s.find(p)`. */
  function Find(s: string, p: string): (k: int)
    ensures k == -1 || OccursAt(s, p, k)
    ensures forall j :: 0 <= j && (k == -1 || j < k) ==> !OccursAt(s, p, j)
  {
    FindFrom(s, p, 0)
  }

  /** Python `p in s`. */
  predicate Contains(s: string, p: string)
    ensures Contains(s, p) <==> exists i :: OccursAt(s, p, i)
  {
    Find(s, p) >= 0
  }

  /** Python `s.startswith(p)`. */
  predicate StartsWith(s: string, p: string)
    ensures StartsWith(s, p) <==> OccursAt(s, p, 0)
  {
    |p| <= |s| && s[..|p|] == p
  }

  /** Python `s[:-n]` for `n >= 0`. Note that `s[:-0]` is `s[:0]`, the empty
      string, and not `s`. */
  function DropLast(s: string, n: nat): (r: string)
    ensures n == 0 ==> r == ""
    ensures 0 < n <= |s| ==> s == r + s[|s| - n..]
    ensures n >= |s| ==> r == ""
  {
    if n == 0 || n >= |s| then "" else s[..|s| - n]
  }

  /** Python `c.isspace()`: the characters of bidirectional class WS, B or S,
      or of general category Zs. */
  const SpaceChars: set<char> := {
    ' ', '\t', '\n', '\r', '\U{0B}', '\U{0C}', '\U{1C}', '\U{1D}', '\U{1E}', '\U{1F}',
    '\U{85}', '\U{A0}', '\U{1680}', '\U{2000}', '\U{2001}', '\U{2002}', '\U{2003}',
    '\U{2004}', '\U{2005}', '\U{2006}', '\U{2007}', '\U{2008}', '\U{2009}', '\U{200A}',
    '\U{2028}', '\U{2029}', '\U{202F}', '\U{205F}', '\U{3000}'
  }

  predicate IsSpace(c: char) {
    c in SpaceChars
  }

  /** Every character of `s[lo..hi]` is whitespace. */
  predicate SpaceBetween(s: string, lo: int, hi: int) {
    forall i :: lo <= i < hi && 0 <= i < |s| ==> IsSpace(s[i])
  }

  predicate AllSpace(s: string) {
    SpaceBetween(s, 0, |s|)
  }

  /** No whitespace at either end. */
  predicate Stripped(s: string) {
    s == "" || (!IsSpace(s[0]) && !IsSpace(s[|s| - 1]))
  }

  /** The first index at or after `i` that does not hold whitespace (or `|s|`):
      where Python's `lstrip()` cuts. */
  function SkipSpace(s: string, i: nat): (k: nat)
    requires i <= |s|
    decreases |s| - i
    ensures i <= k <= |s| && SpaceBetween(s, i, k)
    ensures k < |s| ==> !IsSpace(s[k])
  {
    if i == |s| || !IsSpace(s[i]) then i else SkipSpace(s, i + 1)
  }

  /** The least index `k` in `lo..hi` with only whitespace in `s[k..hi]`: where
      Python's `rstrip()` cuts. */
  function SkipSpaceBack(s: string, lo: nat, hi: nat): (k: nat)
    requires lo <= hi <= |s|
    decreases hi
    ensures lo <= k <= hi && SpaceBetween(s, k, hi)
    ensures lo < k ==> !IsSpace(s[k - 1])
  {
    if hi == lo || !IsSpace(s[hi - 1]) then hi else SkipSpaceBack(s, lo, hi - 1)
  }

  /** `r` is `s[lo..hi]` and everything outside `lo..hi` is whitespace. */
  ghost predicate CutAt(r: string, s: string, lo: int, hi: int) {
    0 <= lo <= hi <= |s| && r == s[lo..hi] && SpaceBetween(s, 0, lo) && SpaceBetween(s, hi, |s|)
  }

  /** `r` is `s` with its leading and trailing whitespace cut off. */
  ghost predicate IsStripOf(r: string, s: string) {
    Stripped(r) && exists lo, hi :: CutAt(r, s, lo, hi)
  }

  /** Python `s.strip()`. */
  function Strip(s: string): (r: string)
    ensures IsStripOf(r, s)
  {
    var lo := SkipSpace(s, 0);
    var hi := SkipSpaceBack(s, lo, |s|);
    assert Stripped(s[lo..hi]) by {
      if lo < hi {
        assert s[lo..hi][0] == s[lo];
        assert s[lo..hi][hi - lo - 1] == s[hi - 1];
      }
    }
    assert CutAt(s[lo..hi], s, lo, hi);
    s[lo..hi]
  }

  /** Stripping is determined: there is only one way to cut whitespace off
      both ends and leave no whitespace at either end. */
  lemma {:induction false} StripUnique(r1: string, r2: string, s: string)
    requires IsStripOf(r1, s) && IsStripOf(r2, s)
    ensures r1 == r2
  {
    var lo1, hi1 :| CutAt(r1, s, lo1, hi1);
    var lo2, hi2 :| CutAt(r2, s, lo2, hi2);
    SameCut(r1, r2, s, lo1, hi1, lo2, hi2);
  }

  lemma {:induction false} SameCut(r1: string, r2: string, s: string, lo1: int, hi1: int, lo2: int, hi2: int)
    requires Stripped(r1) && CutAt(r1, s, lo1, hi1)
    requires Stripped(r2) && CutAt(r2, s, lo2, hi2)
    ensures r1 == r2
  {
    EmptyCut(r1, s, lo1, hi1);
    EmptyCut(r2, s, lo2, hi2);
    if r1 != "" && r2 != "" {
      assert s[lo1] == r1[0] && s[hi1 - 1] == r1[|r1| - 1];
      assert s[lo2] == r2[0] && s[hi2 - 1] == r2[|r2| - 1];
      assert lo1 == lo2 && hi1 == hi2;
    }
  }

  /** `s.strip()` is empty exactly when `s` is all whitespace (Python's
      `not s.strip()`). */
  lemma {:induction false} StripEmpty(s: string)
    ensures Strip(s) == "" <==> AllSpace(s)
  {
    EmptyStripOf(Strip(s), s);
  }

  lemma {:induction false} EmptyStripOf(r: string, s: string)
    requires IsStripOf(r, s)
    ensures r == "" <==> AllSpace(s)
  {
    var lo, hi :| CutAt(r, s, lo, hi);
    EmptyCut(r, s, lo, hi);
  }

  lemma {:induction false} EmptyCut(r: string, s: string, lo: int, hi: int)
    requires Stripped(r) && CutAt(r, s, lo, hi)
    ensures r == "" <==> AllSpace(s)
  {
    if r != "" {
      assert s[lo] == r[0];
    }
  }

  /** An occurrence with none before it is the one `find` reports. */
  lemma {:induction false} FindIs(s: string, p: string, k: int)
    requires OccursAt(s, p, k)
    requires forall j :: 0 <= j < k ==> !OccursAt(s, p, j)
    ensures Find(s, p) == k
  {
  }

  lemma {:induction false} OccursInPrefix(a: string, b: string, p: string, i: int)
    requires OccursAt(a, p, i)
    ensures OccursAt(a + b, p, i)
  {
    assert (a + b)[i..i + |p|] == a[i..i + |p|];
  }

  lemma {:induction false} OccursInSuffix(a: string, b: string, p: string, i: int)
    requires OccursAt(b, p, i)
    ensures OccursAt(a + b, p, |a| + i)
  {
    assert (a + b)[|a| + i..|a| + i + |p|] == b[i..i + |p|];
  }

  /** An occurrence of `p` in `a + b` that lies inside `a` is one of `a`. */
  lemma {:induction false} OccursBackInPrefix(a: string, b: string, p: string, i: int)
    requires OccursAt(a + b, p, i) && i + |p| <= |a|
    ensures OccursAt(a, p, i)
  {
    assert (a + b)[i..i + |p|] == a[i..i + |p|];
  }

  /** An occurrence of `p` in `a + b` that lies inside `b` is one of `b`. */
  lemma {:induction false} OccursBackInSuffix(a: string, b: string, p: string, i: int)
    requires OccursAt(a + b, p, i) && |a| <= i
    ensures OccursAt(b, p, i - |a|)
  {
    assert (a + b)[i..i + |p|] == b[i - |a|..i - |a| + |p|];
  }

  /** When `p`'s first character does not recur in it and `x` holds no `p`,
      the first occurrence in `x + p + y` is the one right after `x`: one
      starting inside `x` would either lie in `x` or carry `p[0]` past its
      own start. */
  lemma {:induction false} FirstAfter(x: string, p: string, y: string)
    requires |p| > 0 && forall k :: 0 < k < |p| ==> p[k] != p[0]
    requires !Contains(x, p)
    ensures OccursAt(x + p + y, p, |x|)
    ensures forall j :: 0 <= j < |x| ==> !OccursAt(x + p + y, p, j)
  {
    var t := x + p + y;
    assert t == x + (p + y);
    assert t[|x|..|x| + |p|] == p;
    forall j | 0 <= j < |x|
      ensures !OccursAt(t, p, j)
    {
      if j + |p| <= |x| {
        if OccursAt(t, p, j) {
          OccursBackInPrefix(x, p + y, p, j);
        }
      } else {
        assert t[j..j + |p|][|x| - j] == t[|x|] == p[0];
      }
    }
  }

  /** An occurrence in a suffix `s[k..]` is one of `s`, shifted by `k`. */
  lemma {:induction false} OccursInDrop(s: string, k: int, p: string, i: int)
    requires 0 <= k <= |s|
    ensures OccursAt(s[k..], p, i) ==> OccursAt(s, p, k + i)
  {
    if OccursAt(s[k..], p, i) {
      assert s[k..][i..i + |p|] == s[k + i..k + i + |p|];
    }
  }

  /** Appending text never hides an occurrence: Python's `p in a` implies `p in a + b`. */
  lemma {:induction false} ContainsAppend(a: string, b: string, p: string)
    ensures Contains(a, p) ==> Contains(a + b, p)
    ensures Contains(b, p) ==> Contains(a + b, p)
  {
    if Contains(a, p) { OccursInPrefix(a, b, p, Find(a, p)); }
    if Contains(b, p) { OccursInSuffix(a, b, p, Find(b, p)); }
  }

  lemma {:induction false} AppendEmpty(s: string)
    ensures s + "" == s && "" + s == s
  {
  }

  lemma {:induction false} AppendAssoc(a: string, b: string, c: string)
    ensures (a + b) + c == a + (b + c)
  {
  }

  /** The three pieces of `a + b + c`, cut back out. */
  lemma {:induction false} SliceOfAppend(a: string, b: string, c: string)
    ensures (a + b + c)[..|a|] == a
    ensures (a + b + c)[|a|..|a| + |b|] == b
    ensures (a + b + c)[|a| + |b|..] == c
  {
  }

  /** A prefix of `a` is a prefix of `a + b`. */
  lemma {:induction false} StartsWithAppend(a: string, b: string, p: string)
    ensures StartsWith(a, p) ==> StartsWith(a + b, p)
  {
    if StartsWith(a, p) {
      assert (a + b)[..|p|] == a[..|p|];
    }
  }

  /** A string ending in `p` contains it. */
  lemma {:induction false} ContainsSuffix(a: string, p: string)
    ensures OccursAt(a + p, p, |a|) && Contains(a + p, p)
  {
    assert (a + p)[|a|..|a| + |p|] == p;
    assert OccursAt(a + p, p, |a|);
  }

  /** The first occurrence in `a` is still the first one in `a + b`. */
  lemma {:induction false} FindInPrefix(a: string, b: string, p: string)
    requires Find(a, p) >= 0
    ensures Find(a + b, p) == Find(a, p)
  {
    var k := Find(a, p);
    OccursInPrefix(a, b, p, k);
    forall j | 0 <= j < k
      ensures !OccursAt(a + b, p, j)
    {
      if OccursAt(a + b, p, j) { OccursBackInPrefix(a, b, p, j); }
    }
    FindIs(a + b, p, k);
  }

  /** When `a` has no occurrence and none of `a + b` starts inside `a`, the
      search in `a + b` is the search in `b`, shifted by `|a|`. */
  lemma {:induction false} FindPastPrefix(a: string, b: string, p: string)
    requires Find(a, p) == -1
    requires Find(a + b, p) == -1 || Find(a + b, p) >= |a|
    ensures Find(a + b, p) == -1 ==> Find(b, p) == -1
    ensures Find(a + b, p) >= 0 ==> Find(b, p) == Find(a + b, p) - |a|
  {
    var k := Find(a + b, p);
    if k >= 0 {
      OccursBackInSuffix(a, b, p, k);
      forall j | 0 <= j < k - |a|
        ensures !OccursAt(b, p, j)
      {
        if OccursAt(b, p, j) { OccursInSuffix(a, b, p, j); }
      }
      FindIs(b, p, k - |a|);
    } else if Find(b, p) >= 0 {
      OccursInSuffix(a, b, p, Find(b, p));
    }
  }

  /** Python `s.split(sep, 1)` for a non-empty `sep`: one part when `sep` does
      not occur, else the text before and after its first occurrence. */
  function SplitOnce(s: string, sep: string): (parts: seq<string>)
    requires sep != ""
    ensures |parts| == 1 || |parts| == 2
    ensures |parts| == 2 <==> Contains(s, sep)
    ensures |parts| == 1 ==> parts[0] == s
    ensures |parts| == 2 ==> s == parts[0] + sep + parts[1] && Find(s, sep) == |parts[0]|
  {
    var k := Find(s, sep);
    if k < 0 then [s]
    else
      assert s == s[..k] + sep + s[k + |sep|..] by {
        assert s[k..k + |sep|] == sep;
        assert s == s[..k] + s[k..k + |sep|] + s[k + |sep|..];
      }
      [s[..k], s[k + |sep|..]]
  }

  /** Python `"".join(parts)`. */
  function Join(parts: seq<string>): (s: string)
    ensures |parts| == 1 ==> s == parts[0]
  {
    if parts == [] then "" else parts[0] + Join(parts[1..])
  }
}

=== FILE: results.dfy ===
/**
  The values the thinking decoders hand back to their callers. Python returns
  dictionaries whose values may be `None`; here the keys become fields and
  `None` becomes `Option.None`.
 */
module Results {

  datatype Option<+T> = None | Some(value: T)

  /** The result of one `stream_decode` call: the `delta_content` and
      `delta_thinking` keys. An absent field (`None`) means "nothing for this
      channel in this call"; `Some("")` means "a boundary was crossed but no
      characters belong to this channel". */
  datatype Delta = Delta(content: Option<string>, thinking: Option<string>)

  /** The result of one `decode` call: the `content` and `thinking` keys. */
  datatype DecodeResult = DecodeResult(content: string, thinking: Option<string>)

  /** What a caller appending the fragments of one channel sees of a field. */
  function OrEmpty(o: Option<string>): string {
    match o
    case None => ""
    case Some(s) => s
  }

  /** The content fragments of a run of stream results, appended in order. */
  function JoinContent(ds: seq<Delta>): string {
    if ds == [] then "" else OrEmpty(ds[0].content) + JoinContent(ds[1..])
  }

  /** The thinking fragments of a run of stream results, appended in order. */
  function JoinThinking(ds: seq<Delta>): string {
    if ds == [] then "" else OrEmpty(ds[0].thinking) + JoinThinking(ds[1..])
  }

  lemma {:induction false} JoinDeltasAppend(a: seq<Delta>, b: seq<Delta>)
    ensures JoinContent(a + b) == JoinContent(a) + JoinContent(b)
    ensures JoinThinking(a + b) == JoinThinking(a) + JoinThinking(b)
  {
    if a == [] {
      assert a + b == b;
    } else {
      assert (a + b)[1..] == a[1..] + b;
      JoinDeltasAppend(a[1..], b);
    }
  }
}

=== FILE: thinking_decoder.dfy ===
/**
  `ThinkingDecoder`: the interface both decoders share. The abstract base
  class with two subclasses becomes one sum type; `stream_decode` and `decode`
  dispatch on the variant, as the base class's methods forward to the
  subclass's `_parse_stream_response` and `_parse_response`.
 */
module ThinkingDecoder {
  import opened PyStr
  import opened Results
  import DefaultThinking
  import GptOssThinking

  datatype Decoder =
    | Default(d: DefaultThinking.Decoder)
    | GptOss(g: GptOssThinking.State)

  /** `stream_decode(text)`: the decoder after the chunk and the chunk's delta.
      A decoder never changes kind. */
  function StreamDecode(dec: Decoder, text: string): (r: (Decoder, Delta))
    ensures r.0.Default? <==> dec.Default?
    // The tag-pair decoder only remembers the text, and always leaves out
    // exactly one of the two fields.
    ensures dec.Default? ==> r.0 == Default(DefaultThinking.Decoder(dec.d.tag, dec.d.buffer + text))
    ensures dec.Default? ==> r.1.content.None? != r.1.thinking.None?
    // The GPT-OSS decoder always fills both.
    ensures dec.GptOss? ==> r.1.content.Some? && r.1.thinking.Some?
  {
    match dec
    case Default(d) =>
      var (d2, delta) := DefaultThinking.StreamDecode(d, text);
      (Default(d2), delta)
    case GptOss(g) =>
      var (g2, delta) := GptOssThinking.StreamDecode(g, text);
      (GptOss(g2), delta)
  }

  /** `decode(text)`: the decoder afterwards and the split of the whole text.
      The tag-pair decoder's one-shot parse leaves its buffer alone and strips
      the content; the GPT-OSS decoder's is its stream call, so it moves the
      state machine exactly as `stream_decode` would. */
  function Decode(dec: Decoder, text: string): (r: (Decoder, DecodeResult))
    ensures r.0.Default? <==> dec.Default?
    ensures dec.Default? ==> r.0 == dec && Stripped(r.1.content)
    ensures dec.GptOss? ==> r.0 == StreamDecode(dec, text).0
                            && Some(r.1.content) == StreamDecode(dec, text).1.content
                            && r.1.thinking == StreamDecode(dec, text).1.thinking
  {
    match dec
    case Default(d) =>
      (dec, DefaultThinking.Decode(d, text))
    case GptOss(g) =>
      var (g2, res) := GptOssThinking.Decode(g, text);
      (GptOss(g2), res)
  }
}
